=== FILE: README.md ===
# Bushfire survival plan workflow — a Dafny model

The service builds a bushfire survival plan with a person in a conversation.
A LangGraph state graph drives it. Language-model nodes assess the risk to
the property and the household's capacity to defend it, and they write the
leave-early or stay-and-defend plan. Between those nodes the graph asks the
client questions, offers choices and records the replies. Each question or
choice is queued for the session. The engine then stops before the node that
reads the reply and resumes there once the client has answered.

This project models the decision logic at the core of that service:

- the two routers, `value_with_default` and `value_with_default_and_questions`,
  which turn a raw state value into a routing label; and `build_context`, which
  lays out the text the language model sees (module `ContextUtils`, with the
  string operations in `Strings`);
- the graph of `create_graph` as data: what each node runs, its plain edges,
  its conditional edges with their path maps, the entry edge and the
  `interrupt_before` set. A fuel-bounded walk, `Advance`, stands for one run
  of the graph library between two interruptions (module `Workflow`);
- the question nodes `WebSocketQuestions` and `WebSocketAnswers` (module
  `Questions`);
- the choice nodes `WebSocketChoice` and `WebSocketSelection` (module `Choice`);
- the state document, the per-session outbound queue of notifications and the
  per-session store of inbound replies (module `StateTypes`).

Everything is a pure function over immutable values. A node takes a `World`
(the session's state plus the two shared session-keyed stores) and returns the
next `World`, or an error where the Python code would raise. Module
`WorkflowProperties` holds the graph-level facts and the run scenarios.

Modelling decisions:

- Every stage section is one `Section` record with every attribute the nodes
  and routers read by name. An attribute a stage does not have and an
  attribute holding None are both `None`, except for `questions`. The
  assessment and plan records declare `questions` and the choice records do
  not (`DeclaresQuestions`). `WebSocketAnswers` tests for the attribute with
  `hasattr` (Questions.py:57), so it tells the two cases apart. A missing session id is `""`,
  because the code only tests `not session_id`.
- The inbound store keeps the client's `answers` value exactly as it arrived
  (main.py:161-162), whatever JSON value that is. The client is not part of
  this model. The model assumes a reply has one of two shapes: a mapping of
  question to answer, or the text of a selected option (`Reply`). Under that
  assumption, a mapping where a choice is expected makes `.lower()` raise in
  the router. A non-empty text where answers are expected makes
  `dict.update` raise, and an empty text updates with nothing. The other JSON
  shapes are listed under "## Left out".
- `WebSocketAnswers` changes the section in place and returns an empty update.
  The model returns the changed state.
- `WebSocketChoice` returns the update `{section: {"choice_prompt": prompt}}`
  (Choice.py:50-54). How the graph merges that update into the section
  depends on the state's channel definitions in StateTypes.py, which is not
  part of this model. The model assumes a merge that sets `choice_prompt`
  alone and creates the section when it is absent. See "## Left out" for what
  a replacing merge would change.
- The language-model nodes are uninterpreted. `Env.llm` maps the node and
  the context built by `BuildContext` to the record the node stores as its
  section, or to nothing when the call fails or its output does not parse.
  This follows AssessDefence.py:68-80. AssessRisk.py, CreateLeavePlan.py,
  CreateStayPlan.py and ShowPlan.py are not part of this model. They are
  assumed to follow the same pattern, and `ShowPlan` is assumed to write
  `final_plan`. `Env.show` renders a section as text; the model never looks
  inside that text.
- A run executes its start node first, including a resumed interrupt node. It
  then follows the node's edge and stops before an interrupt node, at END,
  after a node with no outgoing edge, or on an error. A failing node leaves
  the world as it was before that node ran.
- `str.lower` is modelled on ASCII letters only.

Four behaviours of the code are easy to miss. The model keeps each as
written:

- No node and no handler removes an inbound reply once it has been read
  (Questions.py:50-58, Choice.py:68-79, main.py:161-162). A reply stays in
  the store until the client's next reply overwrites it. A node that reads
  replies and runs again before then sees the same reply again.
- The fallback label leads somewhere different for each router. The risk
  router's fallback re-runs the assessment (workflow.py:70). The continue
  router's fallback stops before GET_CONTINUE_WITH_PLAN and reads the next
  reply there (workflow.py:81). The strategy router's fallback prompts again
  at ASK_STRATEGY (workflow.py:108). The defence router's fallback moves on
  to the strategy choice (workflow.py:97). The plan routers' fallback shows
  the plan (workflow.py:120, 130).
- No edge leaves GET_DEFENCE_ANSWERS. Its only edge, workflow.py:46, enters
  it, while the risk and plan answer nodes lead back to their generating
  nodes (workflow.py:43, 50, 53). A run resumed there stops after merging the
  answers.
- When the risk assessment is "unclear" and there are questions, the run
  executes the asking node and suspends before GET_RISK_ANSWERS
  (workflow.py:42, 137). It does not stop at the asking node itself.

## Model

| member | source | states |
|---|---|---|
| StateTypes.Enqueue | Questions.py:26-34 | The session's queue becomes its old queue plus exactly the new notification at the tail. A missing queue is created. Every other session's queue is unchanged and no queue disappears. |
| StateTypes.EnqueueFifo | Choice.py:34-47 | Two appends to one session leave both notifications at the tail in call order, behind every earlier entry. |
| Strings.Lower | context_utils.py:40 | Lower-casing keeps the length and lower-cases each character in place. |
| Strings.LowerIdempotent | context_utils.py:43 | A lower-cased string has no upper-case letter, and lower-casing it again changes nothing. |
| Strings.Join | context_utils.py:35 | Joining no parts gives the empty text. Otherwise the length is the parts' total length plus one separator between each two neighbours, and the text starts with the first part. |
| Strings.JoinConcat | context_utils.py:35 | Joining two non-empty lists of parts one after the other is joining each list and putting one separator between them. |
| ContextUtils.ValueWithDefault | context_utils.py:39-43 | The label is one of `values` or "default". Any other label is the lower-cased value and belongs to `values`. When "default" is not a value, the label is "default" exactly when the value is missing or its lower-casing is not in `values`. |
| ContextUtils.ValueWithDefaultAndQuestions | context_utils.py:45-60 | The label is one of `values`, "default" or "undetermined". The exact value "unclear" with no questions object or an empty question list gives "undetermined" whenever "unclear" is accepted. When "undetermined" is not a value, that is the only way to get it. |
| ContextUtils.ValueWithDefaultAndQuestionsRefines | context_utils.py:45-60 | The questioning router agrees with `value_with_default` on every input, except that it forces "undetermined" for an exact "unclear" with nothing left to ask. |
| ContextUtils.ValueWithDefaultIdempotent | context_utils.py:39-43 | Routing the router's own label returns the same label, for every set of values. |
| ContextUtils.CapitalisedUnclearIsNotForced | context_utils.py:48-57 | "Unclear" with nothing to ask routes as "unclear", because the forcing test compares the raw value. |
| ContextUtils.MotivationParts | context_utils.py:11-12 | A motivation line is present exactly when the motivation is non-empty. It is the fixed prefix followed by the motivation. |
| ContextUtils.MessageParts | context_utils.py:14-15 | One part per message, holding that message's content at the message's position. |
| ContextUtils.SectionParts | context_utils.py:17-33 | At most one part per listed section. There are no parts exactly when none of the listed sections is present. |
| ContextUtils.SectionPartsMembers | context_utils.py:17-33 | Every present listed section contributes its heading and rendering, and every part comes from a present listed section. |
| ContextUtils.SectionPartsFrame | context_utils.py:17-33 | The section parts depend only on the sections the order lists. |
| ContextUtils.SectionPartsConcat | context_utils.py:17-33 | The parts of a concatenated order are the parts of the first piece followed by the parts of the second. |
| ContextUtils.ContextPartsLayout | context_utils.py:9-33 | The motivation line comes first when there is one. Every message content follows at its transcript position, and the parts of the present sections come after the messages. |
| ContextUtils.BuildContext | context_utils.py:7-37 | The context opens with the motivation line when there is one, and with the first message's content otherwise. `BuildContextSplit` gives the whole text in every case. |
| ContextUtils.BuildContextSplit | context_utils.py:7-37 | The context is the motivation line and the message contents joined by blank lines. One more blank line follows only when both those and the section parts are non-empty, then the section parts joined by blank lines. With no section present, as on a session's first assessment, the context is exactly the motivation line and the messages joined by blank lines. |
| ContextUtils.BuildContextIgnoresFinalPlan | context_utils.py:7-37 | Setting or removing the final plan never changes the context. |
| ContextUtils.SectionPartsAround | context_utils.py:17-33 | At a present section, the parts split into the parts of the earlier sections, then that section's part, then the parts of the later sections. |
| ContextUtils.BuildContextSectionOrder | context_utils.py:9-35 | A present section's part follows the motivation, every message and every earlier present section. In the context it comes after one blank-line separator, ahead of the later sections. |
| ContextUtils.BuildContextEmpty | context_utils.py:7-37 | With no motivation, no messages and no section other than the final plan, the context is empty. |
| Questions.WebSocketQuestions | Questions.py:10-36 | The state and the inbound store never change. Without a session id or without questions nothing is queued. Otherwise exactly one questions notification with the section's questions goes to the tail of the session's queue, and other sessions' queues are unchanged. |
| Questions.WebSocketQuestionsEnqueuesIffAsked | Questions.py:13-34 | The session's queue grows by one exactly when there is a session id and at least one question. |
| Questions.WebSocketQuestionsFifo | Questions.py:26-34 | Asking two sections in turn queues their notifications in that order behind the existing entries. |
| Questions.MergeAnswers | Questions.py:58 | The merged answers have both key sets. Reply entries overwrite, and every other earlier answer is kept. |
| Questions.MergeAnswersIdempotent | Questions.py:53-58 | Merging the same reply twice gives the same answers as merging it once. |
| Questions.WebSocketAnswers | Questions.py:43-59 | Nothing changes without a session id, a reply or the section, or when the section's record has no `questions` attribute. It raises exactly when that attribute holds None or the reply is a non-empty text. An empty text changes nothing when the attribute holds questions. For a mapping reply, the section becomes the old section with only its answers replaced, by the old answers merged with the reply. The queues, the inbound store and every other section are untouched. |
| Questions.WebSocketAnswersIdempotent | Questions.py:43-59 | Resuming twice on the same reply gives the same world as resuming once. |
| Choice.LevelLabel | Choice.py:25-30 | "Risk Level" exactly when the risk level is non-empty. "Capability Level" exactly when only the capability level is non-empty. No label exactly when both are empty. |
| Choice.ChoicePayload | Choice.py:20-47 | The notification is a choice with the configured section, prompt and options. It carries the message section's message and assessment, or the empty text when missing. Its label is "Risk Level" exactly when the risk level is non-empty, "Capability Level" exactly when only the capability level is, and none when both are empty. Its level is the risk level followed by the capability level. |
| Choice.PayloadLevelMatchesLabel | Choice.py:20-31 | The label is "Risk Level" exactly when the message section has a non-empty risk level, and the level shown then starts with it. Under "Capability Level" the section has no risk level and the level is exactly its capability level. Without a label neither level is set and the level is empty. |
| Choice.WebSocketChoice | Choice.py:13-54 | Without a session id nothing changes. Otherwise one choice notification goes to the tail of the session's queue and the node's section records the prompt. An existing section changes in nothing else, so `last_choice` is kept, and a new section has no last choice. Other queues, other sections and the inbound store are unchanged. |
| Choice.WebSocketSelection | Choice.py:61-81 | Nothing changes without a session id or a reply. A missing section raises. Otherwise the reply is stored under the recorded prompt and becomes the last choice. Other prompts' entries, the section's other attributes, other sections, the queues and the inbound store are unchanged. |
| Choice.WebSocketSelectionIdempotent | Choice.py:71-79 | Recording the same reply again changes nothing further. |
| Choice.WebSocketSelectionOverwrites | Choice.py:74-79 | A second reply under the same prompt replaces the first in `choices_made` and becomes the last choice. |
| Choice.ChoiceThenSelection | Choice.py:50-79 | Prompting and then recording stores the reply under the configured prompt as the last choice, with the one choice notification queued. |
| Workflow.EveryBranchCovered | workflow.py:58-132 | Every label a conditional edge's router can return is a key of that edge's path map. |
| Workflow.ActionOf | workflow.py:16-38 | The nodes the engine stops before (the `interrupt_before` list) are exactly the nodes that collect answers or record a choice; every other node only generates, asks or prompts. |
| Workflow.Edges | workflow.py:41-132 | Every conditional edge routes on the section its source node has just written. Each asking node leads to the node that collects that section's answers, and each prompting node to the node that records that section's choice. Every collecting node except GET_DEFENCE_ANSWERS leads back to the node that generates its section. |
| Workflow.RouterValue | workflow.py:60-126 | Reading the routed attribute raises exactly when the section is missing, or when the value is a last choice that is a mapping. |
| Workflow.RouteLabel | workflow.py:58-132 | A router that does not raise returns one of its own labels, and it raises exactly when reading its attribute raises. |
| Workflow.Successor | workflow.py:41-132 | A node with no edge has no successor, and a plain edge gives its target. A conditional edge that does not raise gives a target from its path map, and it raises exactly when its router does. |
| Workflow.GenerateSection | AssessDefence.py:68-80 | A language-model node fails exactly when the model call on the built context fails. Otherwise it stores the returned record as its section and leaves the queues and the rest of the world in place. |
| Workflow.Execute | workflow.py:16-38 | A node that succeeds keeps the session, the transcript, every present section, every queued notification and the inbound store. Asking and prompting nodes always succeed. |
| Workflow.Advance | workflow.py:134-143 | After its first node, a run fails with the world from before that node if the node or its router raises. It halts if no edge leaves the node, completes on an edge to END, and suspends before the target of an edge into an interrupt node. Otherwise it goes on, so it stops before the first interrupt node it reaches. It suspends only before an interrupt node, and the world it ends with keeps everything its start world had. |
| Workflow.Begin | workflow.py:41 | A first run from START runs the risk assessment first and follows the same stopping rule: it fails there if the assessment or its router raises. It suspends only before an interrupt node and keeps everything its start world had. |
| WorkflowProperties.EveryPathLabelReachable | workflow.py:58-132 | Every key of every path map is a label its router returns for some state, so no path-map entry is dead. |
| WorkflowProperties.RouterReachesLabel | context_utils.py:39-60 | A well-formed router returns each label it may return for some state: each value, "default" and, for a questioning router, "undetermined". |
| WorkflowProperties.RoutersWellFormed | workflow.py:58-132 | Every router's values are lower-case and exclude "default", and both questioning routers accept "unclear". |
| WorkflowProperties.RiskPathsTable | workflow.py:66-72 | "unclear" asks the risk questions and "default" retries the assessment. Every other label goes to the continue choice. |
| WorkflowProperties.DefencePathsTable | workflow.py:93-99 | Every label except "unclear" goes to the strategy choice, and "unclear" asks the defence questions. |
| WorkflowProperties.ContinuePathsTable | workflow.py:78-82 | "no" ends the graph and "yes" goes to the defence assessment. "default" returns to the interrupt node that reads the reply. |
| WorkflowProperties.StrategyPathsTable | workflow.py:105-109 | "default" prompts again, and "stay" and "leave" each go to their own plan. |
| WorkflowProperties.RiskRouting | workflow.py:58-73 | A missing or unknown risk level retries the assessment. A level that lower-cases to "unclear" asks the questions, unless it is exactly "unclear" with nothing to ask. Everything else goes to the continue choice. |
| WorkflowProperties.DefenceRouting | workflow.py:85-100 | After the defence assessment the graph asks questions only for a level that lower-cases to "unclear" and is not forced past. Every other level goes to the strategy choice. |
| WorkflowProperties.ContinueRouting | workflow.py:75-83 | A mapping as last choice raises. A selection that lower-cases to "no" ends the graph, and one that lower-cases to "yes" goes to the defence assessment. Anything else, no choice included, waits for another reply. |
| WorkflowProperties.StrategyRouting | workflow.py:102-110 | A mapping as last choice raises. A selection that lower-cases to "stay" goes to the stay plan, and one that lower-cases to "leave" goes to the leave plan. Anything else, no choice included, prompts for the strategy again. |
| WorkflowProperties.PlanRouting | workflow.py:112-132 | A plan asks more questions only when its status lower-cases to "more". Every other status, a missing one included, shows the plan. |
| WorkflowProperties.NonInterruptNodesIgnoreInbox | workflow.py:16-38 | A node the engine does not stop before gives the same result whatever the inbound store holds. |
| WorkflowProperties.AskNodeStopsAfterOneStep | workflow.py:42-52 | An asking or prompting node's only edge enters an interrupt node, so a run started there stops after that one node. |
| WorkflowProperties.EntryAndExits | workflow.py:41-83 | START leads to the risk assessment and the plan display leads to END. Only the plan display and the continue choice can reach END. |
| WorkflowProperties.DefenceAnswersIsTheOnlyDeadEnd | workflow.py:41-132 | GET_DEFENCE_ANSWERS is the one node with no outgoing edge. |
| WorkflowProperties.DefenceAnswersRunStops | workflow.py:46 | A run resumed at GET_DEFENCE_ANSWERS merges the answers and halts there, reaching neither END nor an interrupt. It fails instead when the merge raises. |
| WorkflowProperties.CollaboratorFailureKeepsCheckpoint | workflow.py:134-143 | A failing model call at the risk assessment fails the run at that node with the world unchanged. |
| WorkflowProperties.AdvanceUnfold | workflow.py:134-143 | A step that neither stops nor fails hands the rest of the run to the successor with the updated world. |
| WorkflowProperties.BeginAfterAssessment | workflow.py:41-73 | A successful first assessment stores its record and hands the run to the node its router picks. |
| WorkflowProperties.UnclearRiskRoutes | workflow.py:58-73 | An exact "unclear" risk goes to the risk questions when there are some, and to the continue choice otherwise. |
| WorkflowProperties.UnclearRiskHandsOver | workflow.py:41-73 | After an "unclear" first assessment the run continues at the risk questions, or at the continue choice when there is nothing to ask. |
| WorkflowProperties.UnclearRiskAsksQuestions | workflow.py:41-73 | An "unclear" risk with questions suspends before GET_RISK_ANSWERS. Exactly those questions are queued for the session. |
| WorkflowProperties.UnclearRiskWithoutQuestionsMovesOn | workflow.py:41-73 | An "unclear" risk with nothing to ask does not loop. The run suspends before recording the continue choice, with the prompt recorded and one notification queued. |
| WorkflowProperties.ContinuePromptStops | workflow.py:44 | The continue prompt queues one notification and records its prompt. It then stops before the reply is read. |
| WorkflowProperties.ContinueChoiceRecorded | workflow.py:21 | Resuming at the continue choice runs the selection node, which records the reply as the last choice and keeps the sections and queues. |
| WorkflowProperties.DecliningEndsTheRun | workflow.py:75-83 | A selected "no", in any case, ends the graph with no section added and nothing queued. |
| WorkflowProperties.UnrecognisedSelectionWaits | workflow.py:75-83 | A selection other than "no" or "yes" stops the run again before the same choice node. |
| WorkflowProperties.MappingAsSelectionFails | workflow.py:77 | A mapping where a selected option is expected fails the run at the choice node, with the world from before it. |

## Left out

- The transport in main.py is not modelled: the WebSocket endpoint, the
  asynchronous re-invocation of the graph, the locks, and the
  drain-then-clear of the outbound queue. These are I/O and concurrency. The
  locks only make each read-modify-write of a session's entry atomic, and the
  model's pure functions already are.
- Cross-session races and lock ordering are not modelled. The model is
  sequential.
- The language-model nodes (AssessRisk, AssessDefence, CreateLeavePlan,
  CreateStayPlan, ShowPlan) are uninterpreted, because their content is a
  remote model's output. The prompt text and the output parser are not
  modelled.
- The text rendering of a section inside the context (pydantic's string
  form) is not modelled. `Env.show` stands for it.
- LangGraph internals are not part of this model: the `MemorySaver` checkpoint store, `invoke`
  and resuming from a checkpoint. `Advance` is an abstraction of the library's
  run loop over the edge table.
- Workflow.Advance: the fuel bound stands for the library's step limit. A run
  that uses up its fuel ends as `OutOfFuel`, which the library reports as an
  error of its own.
- `print_context` and all logging calls are not modelled. They are debugging
  output.
- Strings.Lower: lower-cases ASCII letters only, because Python's full
  Unicode case mapping is not modelled.
- Choice.ChoicePayload: a level attribute that is present but holds None is
  read as empty. In Python, `len(None)` would raise there. The model assumes
  the parsed records never hold None levels. A message or assessment that
  holds None is likewise shown as empty text rather than as null.
- Choice.WebSocketChoice: the model assumes the returned update sets
  `choice_prompt` and keeps the section's other attributes. StateTypes.py,
  which defines how the update is merged, is not part of this model. If the
  merge instead replaces the section (LangGraph's default for a plain
  field), the section would hold only `choice_prompt`. A re-prompt at
  ASK_STRATEGY after an unrecognised selection would then drop
  `choices_made` and `last_choice`. The model does not promise that case.
- StateTypes.Reply: a JSON `null`, list, number or boolean sent as the
  client's answers is not modelled. In the code, a `null` at
  GET_CONTINUE_WITH_PLAN or GET_STRATEGY is stored as a `last_choice` of None
  (Choice.py:79). The router then returns "default" (context_utils.py:40-42),
  and the run waits or prompts again instead of raising. A `null`, number or
  boolean at a GET_*_ANSWERS node makes `answers.update` raise
  (Questions.py:58). A list of pairs merges there like a mapping. A number
  or boolean as a selection makes the router's `.lower()` raise.
- Questions.WebSocketAnswers: which records declare a `questions` attribute
  is taken from the stage shapes: the assessment and plan records do, and
  the choice records and the final plan do not. StateTypes.py, which defines
  them, is not part of this model. The graph only runs the node on the
  assessment and plan sections (workflow.py:18, 25, 32, 36).

=== FILE: choice.dfy ===
/**
  The choice nodes (Choice.py): one shows the client a prompt with its
  options and the assessment it is about, the other records the option the
  client picked.
 */
module Choice {
  import opened StateTypes

  /** A configured choice node: where the prompt is recorded and which section supplies the message. */
  datatype ChoiceConfig = ChoiceConfig(section: SectionName, messageSection: SectionName,
                                       prompt: string, choices: seq<string>)

  /** The section the payload reads from; a missing section reads like one without attributes. */
  function MessageSection(st: State, name: SectionName): Section {
    if name in st.sections then st.sections[name] else EmptySection
  }

  /** Which level the payload names: risk takes precedence over capability; neither when both are empty. */
  function LevelLabel(riskLevel: string, capabilityLevel: string): (r: Option<string>)
    ensures r == Some("Risk Level") <==> riskLevel != ""
    ensures r == Some("Capability Level") <==> riskLevel == "" && capabilityLevel != ""
    ensures r == None <==> riskLevel == "" && capabilityLevel == ""
  {
    if |riskLevel| > 0 then Some("Risk Level")
    else if |capabilityLevel| > 0 then Some("Capability Level")
    else None
  }

  /**
    The choice notification built from the message section: a missing
    section or attribute reads as the empty text, the label names the first
    non-empty level, and the level shown is the two levels run together.
   */
  function ChoicePayload(cfg: ChoiceConfig, st: State): (r: Notification)
    ensures r.ChoiceNote? && r.section == cfg.section && r.prompt == cfg.prompt && r.choices == cfg.choices
    ensures var ms := MessageSection(st, cfg.messageSection);
            var rl := ms.riskLevel.GetOr("");
            var cl := ms.capabilityLevel.GetOr("");
            && r.message == ms.message.GetOr("")
            && r.assessment == ms.assessment.GetOr("")
            && (r.levelLabel == Some("Risk Level") <==> rl != "")
            && (r.levelLabel == Some("Capability Level") <==> rl == "" && cl != "")
            && (r.levelLabel == None <==> rl == "" && cl == "")
            && r.level == rl + cl
  {
    var ms := MessageSection(st, cfg.messageSection);
    var riskLevel := ms.riskLevel.GetOr("");
    var capabilityLevel := ms.capabilityLevel.GetOr("");
    ChoiceNote(cfg.section, cfg.prompt, cfg.choices, ms.message.GetOr(""), ms.assessment.GetOr(""),
               LevelLabel(riskLevel, capabilityLevel), riskLevel + capabilityLevel)
  }

  /**
    The level shown is the one its label names, read from the message
    section: under "Risk Level" the section has a non-empty risk level and
    the level starts with it; under "Capability Level" the section has no
    risk level and the level is exactly its capability level; without a
    label neither level is set and the level is empty.
   */
  lemma PayloadLevelMatchesLabel(cfg: ChoiceConfig, st: State)
    ensures var ms := MessageSection(st, cfg.messageSection);
            var r := ChoicePayload(cfg, st);
            && (r.levelLabel == Some("Risk Level") <==> ms.riskLevel.Some? && ms.riskLevel.value != "")
            && (r.levelLabel == Some("Risk Level") ==> r.level[..|ms.riskLevel.value|] == ms.riskLevel.value)
            && (r.levelLabel == Some("Capability Level") ==>
                  ms.riskLevel.GetOr("") == "" && ms.capabilityLevel.Some? && r.level == ms.capabilityLevel.value)
            && (r.levelLabel == None ==> ms.riskLevel.GetOr("") == "" && ms.capabilityLevel.GetOr("") == "" && r.level == "")
  {
    var ms := MessageSection(st, cfg.messageSection);
    var riskLevel := ms.riskLevel.GetOr("");
    var capabilityLevel := ms.capabilityLevel.GetOr("");
    assert (riskLevel + capabilityLevel)[..|riskLevel|] == riskLevel;
    if riskLevel == "" {
      assert riskLevel + capabilityLevel == capabilityLevel;
    }
  }

  /** The section after the prompt is recorded: an existing section keeps every other attribute. */
  function WithPrompt(st: State, section: SectionName, prompt: string): State {
    var sec := if section in st.sections then st.sections[section] else EmptySection;
    st.(sections := st.sections[section := sec.(choicePrompt := Some(prompt))])
  }

  /**
    `WebSocketChoice`: with a session id, queues the choice notification and
    records the prompt in the node's section; `last_choice` and every other
    section stay as they were. Without a session id nothing happens.
   */
  function WebSocketChoice(cfg: ChoiceConfig, w: World): (r: World)
    ensures w.state.sessionId == "" ==> r == w
    ensures var sid := w.state.sessionId;
            sid != "" ==>
              && Queue(r.outbox, sid) == Queue(w.outbox, sid) + [ChoicePayload(cfg, w.state)]
              && r.outbox.Keys == w.outbox.Keys + {sid}
              && cfg.section in r.state.sections
              && r.state.sections[cfg.section].choicePrompt == Some(cfg.prompt)
              && (cfg.section in w.state.sections ==>
                    r.state.sections[cfg.section] == w.state.sections[cfg.section].(choicePrompt := Some(cfg.prompt)))
              && (cfg.section !in w.state.sections ==> r.state.sections[cfg.section].lastChoice.None?)
    ensures forall k :: k in w.outbox && k != w.state.sessionId ==> k in r.outbox && r.outbox[k] == w.outbox[k]
    ensures forall n :: n != cfg.section ==>
              (n in r.state.sections <==> n in w.state.sections)
              && (n in w.state.sections ==> r.state.sections[n] == w.state.sections[n])
    ensures r.inbox == w.inbox && Grows(w, r)
  {
    var sid := w.state.sessionId;
    if sid == "" then w
    else World(WithPrompt(w.state, cfg.section, cfg.prompt),
               Enqueue(w.outbox, sid, ChoicePayload(cfg, w.state)),
               w.inbox)
  }

  /**
    `WebSocketSelection`: stores the session's reply under the recorded prompt
    in `choices_made` and as `last_choice`. Without a session id or a reply it
    changes nothing; a missing section makes the attribute access raise.
   */
  function WebSocketSelection(section: SectionName, w: World): (r: Result<World>)
    ensures var sid := w.state.sessionId;
            (sid == "" || sid !in w.inbox) ==> r == Ok(w)
    ensures var sid := w.state.sessionId;
            r.Err? <==> sid != "" && sid in w.inbox && section !in w.state.sections
    ensures var sid := w.state.sessionId;
            r.Ok? && sid != "" && sid in w.inbox ==>
              section in w.state.sections && section in r.value.state.sections &&
              var before := w.state.sections[section];
              var after := r.value.state.sections[section];
              && after.lastChoice == Some(w.inbox[sid])
              && after.choicesMade.Keys == before.choicesMade.Keys + {before.choicePrompt}
              && after.choicesMade[before.choicePrompt] == w.inbox[sid]
              && (forall p :: p in before.choicesMade && p != before.choicePrompt ==>
                    after.choicesMade[p] == before.choicesMade[p])
              && after.(choicesMade := before.choicesMade, lastChoice := before.lastChoice) == before
    ensures r.Ok? ==> r.value.outbox == w.outbox && r.value.inbox == w.inbox && Grows(w, r.value)
    ensures r.Ok? ==> forall n :: n != section ==>
              (n in r.value.state.sections <==> n in w.state.sections)
              && (n in w.state.sections ==> r.value.state.sections[n] == w.state.sections[n])
  {
    var sid := w.state.sessionId;
    if sid == "" || sid !in w.inbox then Ok(w)
    else if section !in w.state.sections then Err(MissingSection(section))
    else
      var reply := w.inbox[sid];
      var sec := w.state.sections[section];
      var sec' := sec.(choicesMade := sec.choicesMade[sec.choicePrompt := reply], lastChoice := Some(reply));
      Ok(w.(state := w.state.(sections := w.state.sections[section := sec'])))
  }

  /** Recording the same reply again changes nothing further. */
  lemma WebSocketSelectionIdempotent(section: SectionName, w: World)
    requires WebSocketSelection(section, w).Ok?
    ensures WebSocketSelection(section, WebSocketSelection(section, w).value) == WebSocketSelection(section, w)
  {
    var sid := w.state.sessionId;
    if sid != "" && sid in w.inbox {
      var once := WebSocketSelection(section, w).value;
      var sec := once.state.sections[section];
      assert sec.choicesMade[sec.choicePrompt := w.inbox[sid]] == sec.choicesMade;
      assert sec.(choicesMade := sec.choicesMade, lastChoice := Some(w.inbox[sid])) == sec;
      assert once.state.sections[section := sec] == once.state.sections;
    }
  }

  /**
    A second reply under the same prompt overwrites the first: only the
    second is kept in `choices_made`, and it is the last choice.
   */
  lemma WebSocketSelectionOverwrites(section: SectionName, w: World, second: Reply)
    requires WebSocketSelection(section, w).Ok?
    requires w.state.sessionId != "" && w.state.sessionId in w.inbox
    ensures var once := WebSocketSelection(section, w).value;
            var again := WebSocketSelection(section, once.(inbox := once.inbox[w.state.sessionId := second]));
            var prompt := w.state.sections[section].choicePrompt;
            && again.Ok?
            && again.value.state.sections[section].choicesMade
               == w.state.sections[section].choicesMade[prompt := second]
            && again.value.state.sections[section].lastChoice == Some(second)
  {
  }

  /**
    Prompting and then recording: the reply ends up under the configured
    prompt and becomes the last choice, whatever the section held before.
   */
  lemma ChoiceThenSelection(cfg: ChoiceConfig, w: World)
    requires w.state.sessionId != "" && w.state.sessionId in w.inbox
    ensures var shown := WebSocketChoice(cfg, w);
            var recorded := WebSocketSelection(cfg.section, shown);
            && recorded.Ok?
            && recorded.value.state.sections[cfg.section].choicesMade[Some(cfg.prompt)] == w.inbox[w.state.sessionId]
            && recorded.value.state.sections[cfg.section].lastChoice == Some(w.inbox[w.state.sessionId])
            && Queue(recorded.value.outbox, w.state.sessionId)
               == Queue(w.outbox, w.state.sessionId) + [ChoicePayload(cfg, w.state)]
  {
  }
}

=== FILE: context_utils.dfy ===
/**
  The routers that turn a raw state value into a routing label, and the
  context text handed to the language model (context_utils.py).
 */
module ContextUtils {
  import opened StateTypes
  import opened Strings

  /** The labels a router over `values` may return. */
  predicate IsRouterLabel(l: string, values: seq<string>, withQuestions: bool) {
    l in values || l == "default" || (withQuestions && l == "undetermined")
  }

  /**
    `value_with_default`: the lower-cased value when that is one of `values`,
    and the fallback label "default" otherwise (also for a missing value).
   */
  function ValueWithDefault(value: Option<string>, values: seq<string>): (r: string)
    ensures IsRouterLabel(r, values, false)
    ensures r != "default" ==> value.Some? && r == Lower(value.value) && r in values
    ensures "default" !in values ==> (r == "default" <==> value.None? || Lower(value.value) !in values)
  {
    if value.None? || Lower(value.value) !in values then "default" else Lower(value.value)
  }

  /** A section's questions object is missing or holds no question. */
  predicate NoQuestions(questions: Option<QuestionSet>) {
    questions.None? || |questions.value.questions| == 0
  }

  /**
    `value_with_default_and_questions`: like `ValueWithDefault`, except that
    the exact value "unclear" with nothing left to ask becomes "undetermined".
    The "unclear" test looks at the value as given, not at its lower-casing.
   */
  function ValueWithDefaultAndQuestions(value: Option<string>, values: seq<string>,
                                        questions: Option<QuestionSet>): (r: string)
    ensures IsRouterLabel(r, values, true)
    ensures value == Some("unclear") && "unclear" in values && NoQuestions(questions) ==> r == "undetermined"
    ensures r == "undetermined" && "undetermined" !in values ==> value == Some("unclear") && NoQuestions(questions)
  {
    LowerFixesLowerCase("unclear");
    if value.None? || Lower(value.value) !in values then
      "default"
    else if value.value == "unclear" && NoQuestions(questions) then
      "undetermined"
    else
      Lower(value.value)
  }

  /**
    The two routers agree except where the second forces progress: it is the
    first one with the single "unclear, nothing to ask" case redirected.
   */
  lemma ValueWithDefaultAndQuestionsRefines(value: Option<string>, values: seq<string>,
                                            questions: Option<QuestionSet>)
    ensures ValueWithDefaultAndQuestions(value, values, questions)
         == if value == Some("unclear") && "unclear" in values && NoQuestions(questions)
            then "undetermined"
            else ValueWithDefault(value, values)
  {
    if value == Some("unclear") {
      LowerFixesLowerCase("unclear");
    }
  }

  /** Routing is idempotent: feeding a router's label back to it returns the same label. */
  lemma ValueWithDefaultIdempotent(value: Option<string>, values: seq<string>)
    ensures ValueWithDefault(Some(ValueWithDefault(value, values)), values) == ValueWithDefault(value, values)
  {
    var r := ValueWithDefault(value, values);
    if r == "default" {
      LowerFixesLowerCase("default");
    } else {
      LowerIdempotent(value.value);
    }
  }

  /** The case test on "unclear" is exact: "Unclear" with nothing to ask still routes as "unclear". */
  lemma CapitalisedUnclearIsNotForced(values: seq<string>, questions: Option<QuestionSet>)
    requires "unclear" in values
    requires NoQuestions(questions)
    ensures ValueWithDefaultAndQuestions(Some("Unclear"), values, questions) == "unclear"
  {
    var l := Lower("Unclear");
    assert l[0] == 'u';
    assert l == "unclear";
  }

  // ---------------------------------------------------------------------------
  // build_context

  const Separator := "\n\n"
  const MotivationPrefix := "User's reason for creating bushfire plan: "

  /** The sections that enter the context, in the order they appear in it; not `FinalPlan`. */
  const ContextOrder: seq<SectionName> :=
    [RiskAssessment, ContinueWithPlan, DefenceAssessment, StayOrLeavePlan, LeavePlan, StayPlan]

  function Heading(name: SectionName): string
    requires name != FinalPlan
  {
    match name
    case RiskAssessment => "Risk Assessment: "
    case ContinueWithPlan => "Continue with Plan: "
    case DefenceAssessment => "Defence Assessment: "
    case StayOrLeavePlan => "Stay or Leave Plan: "
    case LeavePlan => "Leave Plan: "
    case StayPlan => "Stay Plan: "
  }

  /**
    The text of one present section: its heading followed by the section's own
    rendering, which `show` stands for.
   */
  function Part(name: SectionName, section: Section, show: (SectionName, Section) -> string): string
    requires name != FinalPlan
  {
    Heading(name) + show(name, section)
  }

  /** The motivation line, present only when the motivation is a non-empty text. */
  function MotivationParts(motivation: Option<string>): (r: seq<string>)
    ensures |r| <= 1
    ensures r != [] <==> motivation.Some? && motivation.value != ""
    ensures r != [] ==> r[0] == MotivationPrefix + motivation.value
  {
    if motivation.Some? && motivation.value != "" then [MotivationPrefix + motivation.value] else []
  }

  /** The contents of the transcript's messages, in transcript order. */
  function MessageParts(messages: seq<Message>): (r: seq<string>)
    ensures |r| == |messages|
    ensures forall i :: 0 <= i < |messages| ==> r[i] == messages[i].content
  {
    if messages == [] then [] else [messages[0].content] + MessageParts(messages[1..])
  }

  /** The parts of the sections of `order` that are present, in the order of `order`. */
  function SectionParts(sections: map<SectionName, Section>, order: seq<SectionName>,
                        show: (SectionName, Section) -> string): (r: seq<string>)
    requires FinalPlan !in order
    ensures |r| <= |order|
    ensures r == [] <==> forall i :: 0 <= i < |order| ==> order[i] !in sections
  {
    if order == [] then []
    else
      var rest := SectionParts(sections, order[1..], show);
      assert forall i :: 1 <= i < |order| ==> order[i] == order[1..][i - 1];
      if order[0] in sections then [Part(order[0], sections[order[0]], show)] + rest else rest
  }

  /** Every present section of `order` has its part in the list, and every part comes from one. */
  lemma {:induction false} SectionPartsMembers(sections: map<SectionName, Section>, order: seq<SectionName>,
                                               show: (SectionName, Section) -> string)
    requires FinalPlan !in order
    ensures forall i :: 0 <= i < |order| && order[i] in sections ==>
              Part(order[i], sections[order[i]], show) in SectionParts(sections, order, show)
    ensures forall p :: p in SectionParts(sections, order, show) ==>
              exists i :: 0 <= i < |order| && order[i] in sections && p == Part(order[i], sections[order[i]], show)
    decreases |order|
  {
    if order != [] {
      var rest := order[1..];
      SectionPartsMembers(sections, rest, show);
      assert forall i :: 1 <= i < |order| ==> order[i] == rest[i - 1];
      forall p | p in SectionParts(sections, order, show)
        ensures exists i :: 0 <= i < |order| && order[i] in sections && p == Part(order[i], sections[order[i]], show)
      {
        if p !in SectionParts(sections, rest, show) {
          assert p == Part(order[0], sections[order[0]], show);
        } else {
          var j :| 0 <= j < |rest| && rest[j] in sections && p == Part(rest[j], sections[rest[j]], show);
          assert order[j + 1] == rest[j];
        }
      }
    }
  }

  /** The parts of the context: the motivation, then each message, then each present section. */
  function ContextParts(st: State, show: (SectionName, Section) -> string): seq<string> {
    MotivationParts(st.motivation) + MessageParts(st.messages) + SectionParts(st.sections, ContextOrder, show)
  }

  /**
    Where each part sits in the context: the motivation line first when there
    is one, then every message content at its transcript position, then the
    parts of the present sections.
   */
  lemma ContextPartsLayout(st: State, show: (SectionName, Section) -> string)
    ensures var r := ContextParts(st, show);
            var m := if st.motivation.Some? && st.motivation.value != "" then 1 else 0;
            && |r| == m + |st.messages| + |SectionParts(st.sections, ContextOrder, show)|
            && (m == 1 ==> r[0] == MotivationPrefix + st.motivation.value)
            && (forall i :: 0 <= i < |st.messages| ==> r[m + i] == st.messages[i].content)
            && r[m + |st.messages|..] == SectionParts(st.sections, ContextOrder, show)
  {
  }

  /**
    `build_context`: the context parts joined by blank lines. It opens with
    the motivation line when there is one, and with the first message's
    content otherwise.
   */
  function BuildContext(st: State, show: (SectionName, Section) -> string): (r: string)
    ensures st.motivation.Some? && st.motivation.value != "" ==>
              var line := MotivationPrefix + st.motivation.value;
              |line| <= |r| && r[..|line|] == line
    ensures (st.motivation.None? || st.motivation.value == "") && st.messages != [] ==>
              var first := st.messages[0].content;
              |first| <= |r| && r[..|first|] == first
  {
    ContextPartsLayout(st, show);
    Join(ContextParts(st, show), Separator)
  }

  /**
    The context text in every case: the motivation line and the message
    contents joined by blank lines, then one more blank line only when both
    those and the section parts are non-empty, then the section parts joined
    by blank lines.
   */
  lemma BuildContextSplit(st: State, show: (SectionName, Section) -> string)
    ensures var lead := MotivationParts(st.motivation) + MessageParts(st.messages);
            var secs := SectionParts(st.sections, ContextOrder, show);
            BuildContext(st, show)
            == Join(lead, Separator) + (if lead != [] && secs != [] then Separator else "") + Join(secs, Separator)
  {
    var lead := MotivationParts(st.motivation) + MessageParts(st.messages);
    var secs := SectionParts(st.sections, ContextOrder, show);
    assert ContextParts(st, show) == lead + secs;
    if lead == [] {
      assert lead + secs == secs;
    } else if secs == [] {
      assert lead + secs == lead;
    } else {
      JoinConcat(lead, secs, Separator);
    }
  }

  /** Section parts depend only on the sections `order` names. */
  lemma {:induction false} SectionPartsFrame(s1: map<SectionName, Section>, s2: map<SectionName, Section>,
                                             order: seq<SectionName>, show: (SectionName, Section) -> string)
    requires FinalPlan !in order
    requires forall i :: 0 <= i < |order| ==>
               (order[i] in s1 <==> order[i] in s2) && (order[i] in s1 ==> s1[order[i]] == s2[order[i]])
    ensures SectionParts(s1, order, show) == SectionParts(s2, order, show)
    decreases |order|
  {
    if order != [] {
      assert forall i :: 0 <= i < |order[1..]| ==> order[1..][i] == order[i + 1];
      SectionPartsFrame(s1, s2, order[1..], show);
    }
  }

  /** Section parts keep the order of `order`: the parts of a prefix come before those of the rest. */
  lemma {:induction false} SectionPartsConcat(sections: map<SectionName, Section>, o1: seq<SectionName>,
                                              o2: seq<SectionName>, show: (SectionName, Section) -> string)
    requires FinalPlan !in o1 && FinalPlan !in o2
    ensures SectionParts(sections, o1 + o2, show)
         == SectionParts(sections, o1, show) + SectionParts(sections, o2, show)
    decreases |o1|
  {
    if o1 == [] {
      assert o1 + o2 == o2;
    } else {
      assert (o1 + o2)[1..] == o1[1..] + o2;
      SectionPartsConcat(sections, o1[1..], o2, show);
    }
  }

  /** The final plan never enters the context: setting or removing it leaves the context unchanged. */
  lemma BuildContextIgnoresFinalPlan(st: State, plan: Option<Section>, show: (SectionName, Section) -> string)
    ensures var sections' := if plan.Some? then st.sections[FinalPlan := plan.value] else st.sections - {FinalPlan};
            BuildContext(st.(sections := sections'), show) == BuildContext(st, show)
  {
    var sections' := if plan.Some? then st.sections[FinalPlan := plan.value] else st.sections - {FinalPlan};
    SectionPartsFrame(sections', st.sections, ContextOrder, show);
  }

  /** Splitting an order at a present section splits its parts around that section's part. */
  lemma SectionPartsAround(sections: map<SectionName, Section>, order: seq<SectionName>, k: nat,
                           show: (SectionName, Section) -> string)
    requires FinalPlan !in order
    requires k < |order| && order[k] in sections
    ensures SectionParts(sections, order, show)
         == SectionParts(sections, order[..k], show)
            + ([Part(order[k], sections[order[k]], show)] + SectionParts(sections, order[k + 1..], show))
  {
    assert order == order[..k] + order[k..];
    SectionPartsConcat(sections, order[..k], order[k..], show);
    assert order[k..][1..] == order[k + 1..];
  }

  /**
    A present section's part follows every part of the sections listed
    before it: the context is the join of the earlier parts, a blank line,
    and the join of this section's part with the parts of the later ones.
   */
  lemma BuildContextSectionOrder(st: State, k: nat, show: (SectionName, Section) -> string)
    requires k < |ContextOrder| && ContextOrder[k] in st.sections
    requires MotivationParts(st.motivation) + MessageParts(st.messages)
             + SectionParts(st.sections, ContextOrder[..k], show) != []
    ensures BuildContext(st, show)
         == Join(MotivationParts(st.motivation) + MessageParts(st.messages)
                 + SectionParts(st.sections, ContextOrder[..k], show), Separator)
            + Separator
            + Join([Part(ContextOrder[k], st.sections[ContextOrder[k]], show)]
                   + SectionParts(st.sections, ContextOrder[k + 1..], show), Separator)
  {
    JoinAround(MotivationParts(st.motivation) + MessageParts(st.messages), st.sections, ContextOrder, k, show);
  }

  lemma JoinAround(lead: seq<string>, sections: map<SectionName, Section>, order: seq<SectionName>, k: nat,
                   show: (SectionName, Section) -> string)
    requires FinalPlan !in order
    requires k < |order| && order[k] in sections
    requires lead + SectionParts(sections, order[..k], show) != []
    ensures Join(lead + SectionParts(sections, order, show), Separator)
         == Join(lead + SectionParts(sections, order[..k], show), Separator)
            + Separator
            + Join([Part(order[k], sections[order[k]], show)] + SectionParts(sections, order[k + 1..], show), Separator)
  {
    var head := SectionParts(sections, order[..k], show);
    var tail := [Part(order[k], sections[order[k]], show)] + SectionParts(sections, order[k + 1..], show);
    SectionPartsAround(sections, order, k, show);
    assert lead + SectionParts(sections, order, show) == (lead + head) + tail;
    JoinConcat(lead + head, tail, Separator);
  }

  /** With no motivation, no messages and no section but the final plan, the context is empty. */
  lemma BuildContextEmpty(st: State, show: (SectionName, Section) -> string)
    requires st.motivation.None? || st.motivation.value == ""
    requires st.messages == []
    requires st.sections.Keys <= {FinalPlan}
    ensures BuildContext(st, show) == ""
  {
    assert SectionParts(st.sections, ContextOrder, show) == [];
  }
}

=== FILE: questions.dfy ===
/**
  The question nodes (Questions.py): one queues a section's questions for the
  client, the other merges the client's answers into the section.
 */
module Questions {
  import opened StateTypes

  /** The section's question list; empty when the section or its questions object is missing. */
  function PendingQuestions(st: State, section: SectionName): seq<string> {
    if section in st.sections && st.sections[section].questions.Some?
    then st.sections[section].questions.value.questions
    else []
  }

  /**
    `WebSocketQuestions`: queues one questions notification for the session
    when it has an id and the section has questions to ask; the state and the
    inbound store never change.
   */
  function WebSocketQuestions(section: SectionName, w: World): (r: World)
    ensures r.state == w.state && r.inbox == w.inbox
    ensures var sid := w.state.sessionId;
            var asks := sid != "" && PendingQuestions(w.state, section) != [];
            && (!asks ==> r.outbox == w.outbox)
            && (asks ==> Queue(r.outbox, sid) == Queue(w.outbox, sid) + [QuestionsNote(section, PendingQuestions(w.state, section))])
            && (asks ==> r.outbox.Keys == w.outbox.Keys + {sid})
            && (forall k :: k in w.outbox && k != sid ==> k in r.outbox && r.outbox[k] == w.outbox[k])
    ensures Grows(w, r)
  {
    var sid := w.state.sessionId;
    var questions := PendingQuestions(w.state, section);
    if sid == "" || |questions| == 0 then w
    else w.(outbox := Enqueue(w.outbox, sid, QuestionsNote(section, questions)))
  }

  /** The session's queue grows by one exactly when there is a session id and a question to ask. */
  lemma WebSocketQuestionsEnqueuesIffAsked(section: SectionName, w: World)
    ensures var sid := w.state.sessionId;
            |Queue(WebSocketQuestions(section, w).outbox, sid)| == |Queue(w.outbox, sid)| + 1
            <==> sid != "" && PendingQuestions(w.state, section) != []
  {
  }

  /** Asking two sections in turn queues their notifications in that order behind the existing ones. */
  lemma WebSocketQuestionsFifo(s1: SectionName, s2: SectionName, w: World)
    requires w.state.sessionId != ""
    requires PendingQuestions(w.state, s1) != [] && PendingQuestions(w.state, s2) != []
    ensures Queue(WebSocketQuestions(s2, WebSocketQuestions(s1, w)).outbox, w.state.sessionId)
         == Queue(w.outbox, w.state.sessionId)
            + [QuestionsNote(s1, PendingQuestions(w.state, s1)), QuestionsNote(s2, PendingQuestions(w.state, s2))]
  {
  }

  /** `answers.update(reply)`: reply entries overwrite, every other answer is kept. */
  function MergeAnswers(answers: map<string, string>, reply: map<string, string>): (r: map<string, string>)
    ensures r.Keys == answers.Keys + reply.Keys
    ensures forall k :: k in reply ==> r[k] == reply[k]
    ensures forall k :: k in answers && k !in reply ==> r[k] == answers[k]
  {
    answers + reply
  }

  /** Merging the same reply twice is merging it once. */
  lemma MergeAnswersIdempotent(answers: map<string, string>, reply: map<string, string>)
    ensures MergeAnswers(MergeAnswers(answers, reply), reply) == MergeAnswers(answers, reply)
  {
  }

  /**
    The stages whose records declare a `questions` attribute: the assessment
    and plan records. The choice records and the final plan do not.
   */
  predicate DeclaresQuestions(section: SectionName) {
    section == RiskAssessment || section == DefenceAssessment || section == LeavePlan || section == StayPlan
  }

  /** The section is present and its questions attribute holds a questions object. */
  predicate HasQuestions(st: State, section: SectionName) {
    section in st.sections && st.sections[section].questions.Some?
  }

  function AnswersOf(st: State, section: SectionName): map<string, string>
    requires HasQuestions(st, section)
  {
    st.sections[section].questions.value.answers
  }

  /** The state with the section's answers replaced. */
  function WithAnswers(st: State, section: SectionName, answers: map<string, string>): (r: State)
    requires HasQuestions(st, section)
    ensures HasQuestions(r, section) && AnswersOf(r, section) == answers
  {
    var sec := st.sections[section];
    st.(sections := st.sections[section := sec.(questions := Some(sec.questions.value.(answers := answers)))])
  }

  /**
    `WebSocketAnswers`: merges the session's inbound reply into the section's
    answers. Without a session id, without a reply, without the section, or
    when the section's record has no `questions` attribute, it changes
    nothing. A `questions` attribute that holds None makes the `answers`
    lookup raise, and a reply that is a non-empty text instead of a mapping
    makes `dict.update` raise; an empty text updates with nothing.
   */
  function WebSocketAnswers(section: SectionName, w: World): (r: Result<World>)
    ensures var sid := w.state.sessionId;
            (sid == "" || sid !in w.inbox || section !in w.state.sections || !DeclaresQuestions(section)) ==> r == Ok(w)
    ensures var sid := w.state.sessionId;
            r.Err? <==> sid != "" && sid in w.inbox && section in w.state.sections && DeclaresQuestions(section)
                        && (|| !HasQuestions(w.state, section)
                            || (w.inbox[sid].Selected? && w.inbox[sid].text != ""))
    ensures r.Err? && !HasQuestions(w.state, section) ==> r.error == MissingQuestions(section)
    ensures var sid := w.state.sessionId;
            sid != "" && sid in w.inbox && w.inbox[sid] == Selected("")
            && (HasQuestions(w.state, section) || !DeclaresQuestions(section) || section !in w.state.sections)
            ==> r == Ok(w)
    ensures var sid := w.state.sessionId;
            sid != "" && sid in w.inbox && DeclaresQuestions(section) && HasQuestions(w.state, section)
            && w.inbox[sid].Answers? ==>
              var before := w.state.sections[section];
              var merged := MergeAnswers(AnswersOf(w.state, section), w.inbox[sid].entries);
              && r.Ok? && section in r.value.state.sections
              && r.value.state.sections[section]
                 == before.(questions := Some(before.questions.value.(answers := merged)))
    ensures r.Ok? ==> r.value.outbox == w.outbox && r.value.inbox == w.inbox && Grows(w, r.value)
    ensures r.Ok? ==> forall n :: n != section ==>
              (n in r.value.state.sections <==> n in w.state.sections)
              && (n in w.state.sections ==> r.value.state.sections[n] == w.state.sections[n])
  {
    var sid := w.state.sessionId;
    if sid == "" || sid !in w.inbox || section !in w.state.sections || !DeclaresQuestions(section) then Ok(w)
    else if !HasQuestions(w.state, section) then Err(MissingQuestions(section))
    else match w.inbox[sid]
      case Answers(entries) =>
        Ok(w.(state := WithAnswers(w.state, section, MergeAnswers(AnswersOf(w.state, section), entries))))
      case Selected(text) =>
        if text == "" then Ok(w) else Err(MalformedReply)
  }

  /** Resuming twice on the same reply gives the same state as resuming once. */
  lemma WebSocketAnswersIdempotent(section: SectionName, w: World)
    requires WebSocketAnswers(section, w).Ok?
    ensures WebSocketAnswers(section, WebSocketAnswers(section, w).value) == WebSocketAnswers(section, w)
  {
    var sid := w.state.sessionId;
    if sid != "" && sid in w.inbox && DeclaresQuestions(section) && HasQuestions(w.state, section)
       && w.inbox[sid].Answers? {
      var once := WebSocketAnswers(section, w).value;
      var m := w.inbox[sid].entries;
      MergeAnswersIdempotent(AnswersOf(w.state, section), m);
      var sec := once.state.sections[section];
      assert sec.questions.value.(answers := MergeAnswers(AnswersOf(once.state, section), m)) == sec.questions.value;
      assert once.state.sections[section := sec] == once.state.sections;
    }
  }
}

=== FILE: state_types.dfy ===
/**
  The state document threaded through the planning graph, the per-session
  outbound queue and the per-session store of inbound replies.

  Every stage section is one `Section` record carrying every attribute the
  graph's nodes and routers look up by name; an attribute the stage does not
  have, and an attribute whose value is None, are both `None` here.
 */
module StateTypes {

  datatype Option<+T> = None | Some(value: T) {
    /** The value, or `default` when there is none (Python's `getattr(obj, name, default)`). */
    function GetOr(default: T): T {
      match this
      case Some(v) => v
      case None => default
    }
  }

  /** Why a node or a router raised instead of returning an update. */
  datatype NodeError =
    | MissingSection(section: SectionName)  // attribute access on a section that is None
    | MissingQuestions(section: SectionName)  // `answers` looked up on a questions attribute that is None
    | MalformedReply                          // the inbound reply has the wrong JSON shape
    | CollaboratorFailure                     // the language model call failed or did not parse

  datatype Result<+T> = Ok(value: T) | Err(error: NodeError)

  /** The stage sections of the state, by attribute name. */
  datatype SectionName =
    | RiskAssessment      // risk_assessment
    | ContinueWithPlan    // continue_with_plan
    | DefenceAssessment   // defence_assessment
    | StayOrLeavePlan     // stay_or_leave_plan
    | LeavePlan           // leave_plan
    | StayPlan            // stay_plan
    | FinalPlan           // final_plan

  /** A section's `questions` object: the questions to ask and the answers received so far. */
  datatype QuestionSet = QuestionSet(questions: seq<string>, answers: map<string, string>)

  /**
    What a client sent for a session: a mapping of question to answer, or the
    text of a selected option.
   */
  datatype Reply = Answers(entries: map<string, string>) | Selected(text: string)

  datatype Section = Section(
    riskLevel: Option<string>,
    capabilityLevel: Option<string>,
    message: Option<string>,
    assessment: Option<string>,
    questions: Option<QuestionSet>,
    choicePrompt: Option<string>,
    choicesMade: map<Option<string>, Reply>,
    lastChoice: Option<Reply>,
    planStatus: Option<string>)

  /** A section built from an update that names none of its attributes. */
  const EmptySection := Section(None, None, None, None, None, None, map[], None, None)

  datatype Message = Message(content: string)

  /** The graph state; a session id of "" stands for a missing one. */
  datatype State = State(
    sessionId: string,
    motivation: Option<string>,
    messages: seq<Message>,
    sections: map<SectionName, Section>)

  /** An entry of a session's outbound queue. */
  datatype Notification =
    | QuestionsNote(section: SectionName, questions: seq<string>)
    | ChoiceNote(section: SectionName, prompt: string, choices: seq<string>,
                 message: string, assessment: string, levelLabel: Option<string>, level: string)

  type Outbox = map<string, seq<Notification>>
  type Inbox = map<string, Reply>

  /** The state of one session together with the two session-keyed stores the nodes share. */
  datatype World = World(state: State, outbox: Outbox, inbox: Inbox)

  /** The queue of session `sid`; a session with no entry has an empty queue. */
  function Queue(outbox: Outbox, sid: string): seq<Notification> {
    if sid in outbox then outbox[sid] else []
  }

  /** Appends `n` to the queue of `sid`, creating the queue when it does not exist. */
  function Enqueue(outbox: Outbox, sid: string, n: Notification): (r: Outbox)
    ensures sid in r && r[sid] == Queue(outbox, sid) + [n]
    ensures r.Keys == outbox.Keys + {sid}
    ensures forall k :: k in outbox && k != sid ==> r[k] == outbox[k]
  {
    outbox[sid := Queue(outbox, sid) + [n]]
  }

  /** Every queue of `before` is a prefix of the same session's queue in `after`. */
  ghost predicate QueuesExtend(before: Outbox, after: Outbox) {
    forall k :: k in before ==> k in after && before[k] <= after[k]
  }

  /**
    What every node keeps: the session, the motivation and the transcript,
    every section already present, every queued notification, and the whole
    inbound store.
   */
  ghost predicate Grows(w: World, w': World) {
    && w'.state.sessionId == w.state.sessionId
    && w'.state.motivation == w.state.motivation
    && w'.state.messages == w.state.messages
    && w.state.sections.Keys <= w'.state.sections.Keys
    && QueuesExtend(w.outbox, w'.outbox)
    && w'.inbox == w.inbox
  }

  lemma GrowsTransitive(w1: World, w2: World, w3: World)
    requires Grows(w1, w2) && Grows(w2, w3)
    ensures Grows(w1, w3)
  {
    forall k | k in w1.outbox
      ensures k in w3.outbox && w1.outbox[k] <= w3.outbox[k]
    {
      assert w1.outbox[k] <= w2.outbox[k];
    }
  }

  /** Two enqueues on one session leave both notifications at its tail, in call order. */
  lemma EnqueueFifo(outbox: Outbox, sid: string, a: Notification, b: Notification)
    ensures Queue(Enqueue(Enqueue(outbox, sid, a), sid, b), sid) == Queue(outbox, sid) + [a, b]
  {
  }
}

=== FILE: strings.dfy ===
/**
  The two string operations the routers and the context builder use:
  lower-casing (Python's `str.lower`, restricted to ASCII letters) and joining
  parts with a separator (Python's `sep.join(parts)`).
 */
module Strings {

  function LowerChar(c: char): char {
    if 'A' <= c <= 'Z' then (c as int + 32) as char else c
  }

  /** No character of `s` is an upper-case ASCII letter. */
  predicate IsLowerCase(s: string) {
    forall i :: 0 <= i < |s| ==> !('A' <= s[i] <= 'Z')
  }

  function Lower(s: string): (r: string)
    ensures |r| == |s|
    ensures forall i :: 0 <= i < |s| ==> r[i] == LowerChar(s[i])
  {
    if s == [] then [] else [LowerChar(s[0])] + Lower(s[1..])
  }

  /** A lower-case string is its own lower-casing. */
  lemma LowerFixesLowerCase(s: string)
    requires IsLowerCase(s)
    ensures Lower(s) == s
  {
    assert forall i :: 0 <= i < |s| ==> Lower(s)[i] == s[i];
  }

  /** Lower-casing is idempotent. */
  lemma LowerIdempotent(s: string)
    ensures IsLowerCase(Lower(s))
    ensures Lower(Lower(s)) == Lower(s)
  {
    LowerFixesLowerCase(Lower(s));
  }

  function TotalLength(parts: seq<string>): nat {
    if parts == [] then 0 else |parts[0]| + TotalLength(parts[1..])
  }

  /** The parts, in order, with `sep` between each two neighbours. */
  function Join(parts: seq<string>, sep: string): (r: string)
    ensures parts == [] ==> r == ""
    ensures parts != [] ==> |r| == TotalLength(parts) + (|parts| - 1) * |sep|
    ensures parts != [] ==> r[..|parts[0]|] == parts[0]
  {
    if |parts| == 0 then ""
    else if |parts| == 1 then parts[0]
    else parts[0] + sep + Join(parts[1..], sep)
  }

  /** Joining a concatenation is joining each half and putting one separator between them. */
  lemma {:induction false} JoinConcat(a: seq<string>, b: seq<string>, sep: string)
    requires a != [] && b != []
    ensures Join(a + b, sep) == Join(a, sep) + sep + Join(b, sep)
    decreases |a|
  {
    if |a| == 1 {
      assert (a + b)[1..] == b;
    } else {
      assert (a + b)[1..] == a[1..] + b;
      JoinConcat(a[1..], b, sep);
    }
  }
}

=== FILE: workflow.dfy ===
/**
  The planning graph (workflow.py) as data: its nodes and what each runs, its
  plain and conditional edges, the nodes the engine stops before, and a
  fuel-bounded walk over it that stands for one run of the graph library
  between two interruptions.
 */
module Workflow {
  import opened StateTypes
  import opened ContextUtils
  import opened Questions
  import opened Choice

  datatype Node =
    | AssessRisk | AskRiskQuestions | GetRiskAnswers
    | AskContinueWithPlan | GetContinueWithPlan
    | AssessDefence | AskDefenceQuestions | GetDefenceAnswers
    | AskStrategy | GetStrategy
    | CreateLeavePlan | AskLeavePlanQuestions | GetLeavePlanAnswers
    | CreateStayPlan | AskStayPlanQuestions | GetStayPlanAnswers
    | ShowPlan

  /** The target of an edge: a node, or the graph's END. */
  datatype Target = To(node: Node) | Finish

  /** The node the graph's START edge leads to. */
  const Entry: Node := AssessRisk

  /** What a node runs when executed. */
  datatype Action =
    | Generate(section: SectionName)   // a language-model node that sets its section
    | Ask(section: SectionName)        // WebSocketQuestions
    | Collect(section: SectionName)    // WebSocketAnswers
    | Prompt(config: ChoiceConfig)     // WebSocketChoice
    | Record(section: SectionName)     // WebSocketSelection

  const ContinueWithPlanChoice := ChoiceConfig(ContinueWithPlan, RiskAssessment, "Continue with plan?", ["yes", "no"])
  const StrategyChoice := ChoiceConfig(StayOrLeavePlan, DefenceAssessment,
                                       "Do you want to create a leave early or stay and defend plan?", ["leave", "stay"])

  /** The section an action writes or, for a prompt, records its prompt in. */
  function Writes(a: Action): SectionName {
    match a
    case Generate(section) => section
    case Ask(section) => section
    case Collect(section) => section
    case Prompt(config) => config.section
    case Record(section) => section
  }

  /** What each node runs; the engine stops before exactly the nodes that read a client's reply. */
  function ActionOf(n: Node): (r: Action)
    ensures n in InterruptBefore <==> r.Collect? || r.Record?
  {
    match n
    case AssessRisk => Generate(RiskAssessment)
    case AskRiskQuestions => Ask(RiskAssessment)
    case GetRiskAnswers => Collect(RiskAssessment)
    case AskContinueWithPlan => Prompt(ContinueWithPlanChoice)
    case GetContinueWithPlan => Record(ContinueWithPlan)
    case AssessDefence => Generate(DefenceAssessment)
    case AskDefenceQuestions => Ask(DefenceAssessment)
    case GetDefenceAnswers => Collect(DefenceAssessment)
    case AskStrategy => Prompt(StrategyChoice)
    case GetStrategy => Record(StayOrLeavePlan)
    case CreateLeavePlan => Generate(LeavePlan)
    case AskLeavePlanQuestions => Ask(LeavePlan)
    case GetLeavePlanAnswers => Collect(LeavePlan)
    case CreateStayPlan => Generate(StayPlan)
    case AskStayPlanQuestions => Ask(StayPlan)
    case GetStayPlanAnswers => Collect(StayPlan)
    case ShowPlan => Generate(FinalPlan)
  }

  /** The attribute of a section a router reads. */
  datatype Field = RiskLevelField | CapabilityLevelField | LastChoiceField | PlanStatusField

  /** A conditional edge's path function: which value it reads and which values it accepts. */
  datatype Router = Router(section: SectionName, field: Field, values: seq<string>, withQuestions: bool)

  datatype Edge = Goto(target: Target) | Branch(router: Router, paths: map<string, Target>) | NoEdge

  const RiskRouter := Router(RiskAssessment, RiskLevelField, ["low", "high", "unclear"], true)
  const ContinueRouter := Router(ContinueWithPlan, LastChoiceField, ["no", "yes"], false)
  const DefenceRouter := Router(DefenceAssessment, CapabilityLevelField, ["low", "high", "unclear"], true)
  const StrategyRouter := Router(StayOrLeavePlan, LastChoiceField, ["stay", "leave"], false)
  const LeavePlanRouter := Router(LeavePlan, PlanStatusField, ["more", "done"], false)
  const StayPlanRouter := Router(StayPlan, PlanStatusField, ["more", "done"], false)

  const RiskPaths: map<string, Target> := map[
    "unclear" := To(AskRiskQuestions),
    "low" := To(AskContinueWithPlan),
    "high" := To(AskContinueWithPlan),
    "default" := To(AssessRisk),
    "undetermined" := To(AskContinueWithPlan)]

  const ContinuePaths: map<string, Target> := map[
    "yes" := To(AssessDefence),
    "no" := Finish,
    "default" := To(GetContinueWithPlan)]

  const DefencePaths: map<string, Target> := map[
    "unclear" := To(AskDefenceQuestions),
    "low" := To(AskStrategy),
    "high" := To(AskStrategy),
    "default" := To(AskStrategy),
    "undetermined" := To(AskStrategy)]

  const StrategyPaths: map<string, Target> := map[
    "stay" := To(CreateStayPlan),
    "leave" := To(CreateLeavePlan),
    "default" := To(AskStrategy)]

  const LeavePlanPaths: map<string, Target> := map[
    "more" := To(AskLeavePlanQuestions),
    "done" := To(ShowPlan),
    "default" := To(ShowPlan)]

  const StayPlanPaths: map<string, Target> := map[
    "more" := To(AskStayPlanQuestions),
    "done" := To(ShowPlan),
    "default" := To(ShowPlan)]

  /**
    The edges declared out of each node. A conditional edge routes on the
    section its source node has just written; an asking node leads to the
    node that collects the answers for the same section, a prompting node to
    the node that records the choice for it, and a collecting node back to
    the node that generates that section, except `GetDefenceAnswers`, which
    has no edge.
   */
  function Edges(n: Node): (r: Edge)
    ensures r.Branch? ==> r.router.section == Writes(ActionOf(n))
    ensures ActionOf(n).Ask? ==> r.Goto? && r.target.To? && ActionOf(r.target.node) == Collect(ActionOf(n).section)
    ensures ActionOf(n).Prompt? ==>
              r.Goto? && r.target.To? && ActionOf(r.target.node) == Record(ActionOf(n).config.section)
    ensures ActionOf(n).Collect? && n != GetDefenceAnswers ==>
              r.Goto? && r.target.To? && ActionOf(r.target.node) == Generate(ActionOf(n).section)
  {
    match n
    case AssessRisk => Branch(RiskRouter, RiskPaths)
    case AskRiskQuestions => Goto(To(GetRiskAnswers))
    case GetRiskAnswers => Goto(To(AssessRisk))
    case AskContinueWithPlan => Goto(To(GetContinueWithPlan))
    case GetContinueWithPlan => Branch(ContinueRouter, ContinuePaths)
    case AssessDefence => Branch(DefenceRouter, DefencePaths)
    case AskDefenceQuestions => Goto(To(GetDefenceAnswers))
    case GetDefenceAnswers => NoEdge
    case AskStrategy => Goto(To(GetStrategy))
    case GetStrategy => Branch(StrategyRouter, StrategyPaths)
    case CreateLeavePlan => Branch(LeavePlanRouter, LeavePlanPaths)
    case AskLeavePlanQuestions => Goto(To(GetLeavePlanAnswers))
    case GetLeavePlanAnswers => Goto(To(CreateLeavePlan))
    case CreateStayPlan => Branch(StayPlanRouter, StayPlanPaths)
    case AskStayPlanQuestions => Goto(To(GetStayPlanAnswers))
    case GetStayPlanAnswers => Goto(To(CreateStayPlan))
    case ShowPlan => Goto(Finish)
  }

  /** The nodes the engine stops before (`interrupt_before`). */
  const InterruptBefore: set<Node> := {
    GetRiskAnswers, GetContinueWithPlan, GetDefenceAnswers,
    GetStrategy, GetLeavePlanAnswers, GetStayPlanAnswers}

  /** Every label the edge's router can return has a target in its path map. */
  ghost predicate Covers(e: Edge) {
    e.Branch? ==> forall l :: IsRouterLabel(l, e.router.values, e.router.withQuestions) ==> l in e.paths
  }

  lemma EveryBranchCovered(n: Node)
    ensures Covers(Edges(n))
  {
  }

  /** The language-model collaborator and the rendering of sections, both outside the model. */
  datatype Env = Env(show: (SectionName, Section) -> string, llm: (Node, string) -> Option<Section>)

  /**
    The value the router reads. Reading any attribute of a missing section
    raises, and so does lower-casing a last choice that is a mapping.
   */
  function RouterValue(r: Router, st: State): (res: Result<Option<string>>)
    ensures res.Err? <==> (|| r.section !in st.sections
                           || (r.field == LastChoiceField && st.sections[r.section].lastChoice.Some?
                               && st.sections[r.section].lastChoice.value.Answers?))
  {
    if r.section !in st.sections then Err(MissingSection(r.section))
    else
      var sec := st.sections[r.section];
      match r.field
      case RiskLevelField => Ok(sec.riskLevel)
      case CapabilityLevelField => Ok(sec.capabilityLevel)
      case PlanStatusField => Ok(sec.planStatus)
      case LastChoiceField =>
        (match sec.lastChoice
         case None => Ok(None)
         case Some(Selected(text)) => Ok(Some(text))
         case Some(Answers(_)) => Err(MalformedReply))
  }

  /** The label the router returns; when it returns one, the label is one its path map must cover. */
  function RouteLabel(r: Router, st: State): (res: Result<string>)
    ensures res.Ok? ==> IsRouterLabel(res.value, r.values, r.withQuestions)
    ensures res.Err? <==> RouterValue(r, st).Err?
  {
    match RouterValue(r, st)
    case Err(e) => Err(e)
    case Ok(value) =>
      if r.withQuestions then Ok(ValueWithDefaultAndQuestions(value, r.values, st.sections[r.section].questions))
      else Ok(ValueWithDefault(value, r.values))
  }

  /**
    Where the graph goes after `n` ran in state `st`: `None` when no edge
    leaves `n`, an error when the router raises.
   */
  function Successor(n: Node, st: State): (res: Result<Option<Target>>)
    ensures Edges(n).NoEdge? <==> res == Ok(None)
    ensures Edges(n).Goto? ==> res == Ok(Some(Edges(n).target))
    ensures Edges(n).Branch? && res.Ok? ==> res.value.Some? && res.value.value in Edges(n).paths.Values
    ensures Edges(n).Branch? ==> (res.Err? <==> RouterValue(Edges(n).router, st).Err?)
  {
    match Edges(n)
    case NoEdge => Ok(None)
    case Goto(t) => Ok(Some(t))
    case Branch(r, paths) =>
      (match RouteLabel(r, st)
       case Err(e) => Err(e)
       case Ok(chosen) =>
         EveryBranchCovered(n);
         Ok(Some(paths[chosen])))
  }

  /** A language-model node: builds the context, asks the model, and stores its record as the section. */
  function GenerateSection(n: Node, section: SectionName, w: World, env: Env): (r: Result<World>)
    ensures r.Err? <==> env.llm(n, BuildContext(w.state, env.show)).None?
    ensures r.Ok? ==> && r.value.state.sections == w.state.sections[section := env.llm(n, BuildContext(w.state, env.show)).value]
                      && r.value.outbox == w.outbox && Grows(w, r.value)
  {
    match env.llm(n, BuildContext(w.state, env.show))
    case None => Err(CollaboratorFailure)
    case Some(sec) => Ok(w.(state := w.state.(sections := w.state.sections[section := sec])))
  }

  /**
    Runs node `n` once. Whatever it runs, a node that succeeds keeps the
    session, every present section, every queued notification and the
    inbound store (`Grows`).
   */
  function Execute(n: Node, w: World, env: Env): (r: Result<World>)
    ensures r.Ok? ==> Grows(w, r.value)
    ensures (ActionOf(n).Ask? || ActionOf(n).Prompt?) ==> r.Ok?
  {
    match ActionOf(n)
    case Generate(section) => GenerateSection(n, section, w, env)
    case Ask(section) => Ok(WebSocketQuestions(section, w))
    case Collect(section) => WebSocketAnswers(section, w)
    case Prompt(cfg) => Ok(WebSocketChoice(cfg, w))
    case Record(section) => WebSocketSelection(section, w)
  }

  /** How a run of the graph ends. */
  datatype Outcome =
    | Suspended(next: Node, world: World)                 // stopped before an interrupt node
    | Completed(world: World)                             // reached END
    | Halted(last: Node, world: World)                    // ran a node that has no outgoing edge
    | Failed(at: Node, world: World, error: NodeError)    // `at` raised; `world` is from before it ran
    | OutOfFuel(at: Node, world: World)                   // the step bound ran out before `at`
  {
    function Final(): World {
      match this
      case Suspended(_, w) => w
      case Completed(w) => w
      case Halted(_, w) => w
      case Failed(_, w, _) => w
      case OutOfFuel(_, w) => w
    }
  }

  /** Running `n` fails: the node raises, or the router after it does. */
  predicate StepFails(n: Node, w: World, env: Env) {
    Execute(n, w, env).Err? || Successor(n, Execute(n, w, env).value.state).Err?
  }

  /**
    What the run does once its first node `n` has run: a node or router that
    raises fails the run with the world from before `n`; otherwise the run
    halts when no edge leaves `n`, completes on an edge to END, and suspends
    before the target of an edge into an interrupt node.
   */
  predicate StepRule(n: Node, w: World, env: Env, o: Outcome) {
    match Execute(n, w, env)
    case Err(e) => o == Failed(n, w, e)
    case Ok(w') =>
      (match Successor(n, w'.state)
       case Err(e) => o == Failed(n, w, e)
       case Ok(None) => o == Halted(n, w')
       case Ok(Some(Finish)) => o == Completed(w')
       case Ok(Some(To(m))) => m in InterruptBefore ==> o == Suspended(m, w'))
  }

  /**
    One run of the graph from `n`, which is executed first (a resumed
    interrupt node included): execute, follow the edge, and stop before an
    interrupt node, at END, after a node with no edge, on an error, or when
    `fuel` steps are used up.
   */
  function Advance(n: Node, w: World, env: Env, fuel: nat): (o: Outcome)
    ensures o.Suspended? ==> o.next in InterruptBefore
    ensures o.Halted? ==> Edges(o.last).NoEdge?
    ensures o.Failed? ==> StepFails(o.at, o.world, env)
    ensures Grows(w, o.Final())
    ensures fuel >= 1 ==> StepRule(n, w, env, o)
    decreases fuel
  {
    if fuel == 0 then OutOfFuel(n, w)
    else
      match Execute(n, w, env)
      case Err(e) => Failed(n, w, e)
      case Ok(w') =>
        (match Successor(n, w'.state)
         case Err(e) => Failed(n, w, e)
         case Ok(None) => Halted(n, w')
         case Ok(Some(Finish)) => Completed(w')
         case Ok(Some(To(m))) =>
           if m in InterruptBefore then Suspended(m, w')
           else
             var o := Advance(m, w', env, fuel - 1);
             GrowsTransitive(w, w', o.Final());
             o)
  }

  /** The first run of a session: START leads to the entry node. */
  function Begin(w: World, env: Env, fuel: nat): (o: Outcome)
    ensures o.Suspended? ==> o.next in InterruptBefore
    ensures Grows(w, o.Final())
    ensures fuel >= 1 ==> StepRule(Entry, w, env, o)
  {
    Advance(Entry, w, env, fuel)
  }
}

=== FILE: workflow_properties.dfy ===
/**
  Facts about the planning graph: where each branch point leads, which nodes
  the engine stops before and why, and how a run unfolds from the first
  assessment and from the continue choice.
 */
module WorkflowProperties {
  import opened StateTypes
  import opened Strings
  import opened ContextUtils
  import opened Questions
  import opened Choice
  import opened Workflow

  // ---------------------------------------------------------------------------
  // Path maps

  /**
    No path map has a dead key: every label in it is one its router can
    return for some state. With `EveryBranchCovered`, the keys of each path
    map are exactly the router's labels.
   */
  lemma EveryPathLabelReachable(n: Node, l: string)
    requires Edges(n).Branch? && l in Edges(n).paths
    ensures exists st :: RouteLabel(Edges(n).router, st) == Ok(l)
  {
    RoutersWellFormed();
    RouterReachesLabel(Edges(n).router, l);
  }

  /** The router's values are lower-case, "default" is not one of them, and a questioning router accepts "unclear". */
  ghost predicate WellFormedRouter(r: Router) {
    && (forall v :: v in r.values ==> IsLowerCase(v))
    && "default" !in r.values
    && (r.withQuestions ==> "unclear" in r.values)
  }

  lemma RoutersWellFormed()
    ensures WellFormedRouter(RiskRouter) && WellFormedRouter(ContinueRouter) && WellFormedRouter(DefenceRouter)
    ensures WellFormedRouter(StrategyRouter) && WellFormedRouter(LeavePlanRouter) && WellFormedRouter(StayPlanRouter)
  {
    assert IsLowerCase("low") && IsLowerCase("high") && IsLowerCase("unclear");
    assert IsLowerCase("no") && IsLowerCase("yes") && IsLowerCase("stay") && IsLowerCase("leave");
    assert IsLowerCase("more") && IsLowerCase("done");
  }

  /** A well-formed router returns each of its labels for some state. */
  lemma RouterReachesLabel(r: Router, l: string)
    requires WellFormedRouter(r)
    requires IsRouterLabel(l, r.values, r.withQuestions)
    ensures exists st :: RouteLabel(r, st) == Ok(l)
  {
    if l in r.values {
      var st := StateWithValue(r, Some(l), Some(QuestionSet(["?"], map[])));
      RouterReadsValue(r, l, st);
    } else if l == "default" {
      var st := StateWithValue(r, None, None);
      assert RouteLabel(r, st) == Ok(l);
    } else {
      var st := StateWithValue(r, Some("unclear"), None);
      LowerFixesLowerCase("unclear");
      assert RouteLabel(r, st) == Ok(l);
    }
  }

  /** A router that reads one of its own values, with questions pending, returns that value. */
  lemma RouterReadsValue(r: Router, l: string, st: State)
    requires WellFormedRouter(r) && l in r.values
    requires RouterValue(r, st) == Ok(Some(l)) && !NoQuestions(st.sections[r.section].questions)
    ensures RouteLabel(r, st) == Ok(l)
  {
    LowerFixesLowerCase(l);
    if r.withQuestions {
      ValueWithDefaultAndQuestionsRefines(Some(l), r.values, st.sections[r.section].questions);
    }
  }

  /** A state whose only section is the router's, holding `v` in the attribute the router reads. */
  function StateWithValue(r: Router, v: Option<string>, questions: Option<QuestionSet>): (st: State)
    ensures RouterValue(r, st) == Ok(v)
    ensures st.sections[r.section].questions == questions
  {
    var sec := match r.field
      case RiskLevelField => EmptySection.(riskLevel := v)
      case CapabilityLevelField => EmptySection.(capabilityLevel := v)
      case PlanStatusField => EmptySection.(planStatus := v)
      case LastChoiceField => EmptySection.(lastChoice := if v.Some? then Some(Selected(v.value)) else None);
    State("", None, [], map[r.section := sec.(questions := questions)])
  }

  /** The risk path map: "unclear" asks, "default" retries the assessment, every other label moves on. */
  lemma RiskPathsTable()
    ensures RiskPaths["unclear"] == To(AskRiskQuestions)
    ensures RiskPaths["default"] == To(AssessRisk)
    ensures forall l :: l in RiskPaths && l != "unclear" && l != "default" ==> RiskPaths[l] == To(AskContinueWithPlan)
  {
  }

  /** The defence path map sends every label but "unclear" to the strategy choice. */
  lemma DefencePathsTable()
    ensures forall l :: l in DefencePaths ==> (DefencePaths[l] == To(AskStrategy) <==> l != "unclear")
    ensures DefencePaths["unclear"] == To(AskDefenceQuestions)
  {
  }

  /** Declining ends the graph, accepting moves to the defence assessment, anything else waits for a new reply. */
  lemma ContinuePathsTable()
    ensures ContinuePaths["no"] == Finish && ContinuePaths["yes"] == To(AssessDefence)
    ensures ContinuePaths["default"] == To(GetContinueWithPlan) && GetContinueWithPlan in InterruptBefore
  {
  }

  /** An unrecognised strategy re-prompts; "stay" and "leave" each go to their own plan. */
  lemma StrategyPathsTable()
    ensures StrategyPaths["default"] == To(AskStrategy)
    ensures StrategyPaths["stay"] == To(CreateStayPlan) && StrategyPaths["leave"] == To(CreateLeavePlan)
  {
  }

  // ---------------------------------------------------------------------------
  // Routing from a state

  /** A branch point follows its path map under the label its router returns. */
  lemma BranchSuccessor(n: Node, st: State)
    requires Edges(n).Branch? && RouteLabel(Edges(n).router, st).Ok?
    ensures Successor(n, st) == Ok(Some(Edges(n).paths[RouteLabel(Edges(n).router, st).value]))
  {
  }

  /** The label an assessment router returns for the level `v` it reads. */
  lemma AssessmentLabel(r: Router, st: State, v: Option<string>)
    requires r.withQuestions && r.values == ["low", "high", "unclear"]
    requires RouterValue(r, st) == Ok(v)
    ensures r.section in st.sections
    ensures var q := st.sections[r.section].questions;
            RouteLabel(r, st)
            == Ok(if v.None? || Lower(v.value) !in r.values then "default"
                  else if v.value == "unclear" && NoQuestions(q) then "undetermined"
                  else Lower(v.value))
  {
    var q := st.sections[r.section].questions;
    ValueWithDefaultAndQuestionsRefines(v, r.values, q);
    LowerFixesLowerCase("unclear");
  }

  /**
    After the risk assessment: an unknown or missing level retries it, the
    exact "unclear" with nothing to ask and any "low" or "high" move on to the
    continue choice, and any other spelling of "unclear" asks the questions.
   */
  lemma RiskRouting(st: State)
    requires RiskAssessment in st.sections
    ensures var sec := st.sections[RiskAssessment];
            var v := sec.riskLevel;
            Successor(AssessRisk, st) == Ok(Some(
              if v.None? || Lower(v.value) !in ["low", "high", "unclear"] then To(AssessRisk)
              else if Lower(v.value) == "unclear" && !(v.value == "unclear" && NoQuestions(sec.questions))
              then To(AskRiskQuestions)
              else To(AskContinueWithPlan)))
  {
    var sec := st.sections[RiskAssessment];
    assert RouterValue(RiskRouter, st) == Ok(sec.riskLevel);
    AssessmentLabel(RiskRouter, st, sec.riskLevel);
    BranchSuccessor(AssessRisk, st);
    RiskPathsTable();
  }

  /** After the defence assessment the graph asks questions only for an "unclear" it cannot force past. */
  lemma DefenceRouting(st: State)
    requires DefenceAssessment in st.sections
    ensures var sec := st.sections[DefenceAssessment];
            var v := sec.capabilityLevel;
            Successor(AssessDefence, st) == Ok(Some(
              if v.Some? && Lower(v.value) == "unclear" && !(v.value == "unclear" && NoQuestions(sec.questions))
              then To(AskDefenceQuestions)
              else To(AskStrategy)))
  {
    var sec := st.sections[DefenceAssessment];
    assert RouterValue(DefenceRouter, st) == Ok(sec.capabilityLevel);
    AssessmentLabel(DefenceRouter, st, sec.capabilityLevel);
    BranchSuccessor(AssessDefence, st);
    DefencePathsTable();
  }

  /**
    After recording the continue choice: a selected "no" in any case ends the
    graph, "yes" goes on to the defence assessment, anything else (no choice
    at all included) waits for another reply, and a mapping raises.
   */
  lemma ContinueRouting(st: State)
    requires ContinueWithPlan in st.sections
    ensures var c := st.sections[ContinueWithPlan].lastChoice;
            Successor(GetContinueWithPlan, st) ==
              if c.Some? && c.value.Answers? then Err(MalformedReply)
              else if c.Some? && Lower(c.value.text) == "no" then Ok(Some(Finish))
              else if c.Some? && Lower(c.value.text) == "yes" then Ok(Some(To(AssessDefence)))
              else Ok(Some(To(GetContinueWithPlan)))
  {
  }

  /**
    After recording the strategy choice: "stay" or "leave" in any case starts
    that plan, anything else (no choice at all included) prompts again, and
    a mapping raises.
   */
  lemma StrategyRouting(st: State)
    requires StayOrLeavePlan in st.sections
    ensures var c := st.sections[StayOrLeavePlan].lastChoice;
            Successor(GetStrategy, st) ==
              if c.Some? && c.value.Answers? then Err(MalformedReply)
              else if c.Some? && Lower(c.value.text) == "stay" then Ok(Some(To(CreateStayPlan)))
              else if c.Some? && Lower(c.value.text) == "leave" then Ok(Some(To(CreateLeavePlan)))
              else Ok(Some(To(AskStrategy)))
  {
  }

  /** A plan asks more questions only when its status reads "more"; every other status shows the plan. */
  lemma PlanRouting(n: Node, st: State)
    requires n == CreateLeavePlan || n == CreateStayPlan
    requires Edges(n).router.section in st.sections
    ensures var v := st.sections[Edges(n).router.section].planStatus;
            Successor(n, st) == Ok(Some(
              if v.Some? && Lower(v.value) == "more"
              then (if n == CreateLeavePlan then To(AskLeavePlanQuestions) else To(AskStayPlanQuestions))
              else To(ShowPlan)))
  {
  }

  // ---------------------------------------------------------------------------
  // Interrupts

  /** The world with another inbound store; errors are kept as they are. */
  function WithInbox(r: Result<World>, inbox: Inbox): Result<World> {
    if r.Ok? then Ok(r.value.(inbox := inbox)) else r
  }

  /**
    Every node the engine does not stop before runs without looking at the
    inbound store: swapping the store before the node is the same as swapping
    it after.
   */
  lemma NonInterruptNodesIgnoreInbox(n: Node, w: World, inbox: Inbox, env: Env)
    requires n !in InterruptBefore
    ensures Execute(n, w.(inbox := inbox), env) == WithInbox(Execute(n, w, env), inbox)
  {
    match ActionOf(n)
    case Generate(section) => GenerateIgnoresInbox(n, section, w, inbox, env);
    case Ask(section) =>
    case Prompt(cfg) =>
  }

  /** A language-model node reads only the state, so the inbound store passes through it untouched. */
  lemma GenerateIgnoresInbox(n: Node, section: SectionName, w: World, inbox: Inbox, env: Env)
    ensures GenerateSection(n, section, w.(inbox := inbox), env) == WithInbox(GenerateSection(n, section, w, env), inbox)
  {
    assert w.(inbox := inbox).state == w.state;
  }

  /**
    An asking or prompting node's only edge leads to an interrupt node, so a
    run started there stops after one step.
   */
  lemma AskNodeStopsAfterOneStep(n: Node, w: World, env: Env, fuel: nat)
    requires ActionOf(n).Ask? || ActionOf(n).Prompt?
    requires fuel >= 1
    ensures Edges(n).Goto? && Edges(n).target.To? && Edges(n).target.node in InterruptBefore
    ensures Advance(n, w, env, fuel) == Suspended(Edges(n).target.node, Execute(n, w, env).value)
  {
  }

  /** START leads to the risk assessment, and only the plan display and a declined plan reach END. */
  lemma EntryAndExits(n: Node, st: State)
    ensures Entry == AssessRisk && Edges(ShowPlan) == Goto(Finish)
    ensures Successor(n, st) == Ok(Some(Finish)) ==> n == ShowPlan || n == GetContinueWithPlan
  {
    match n
    case AssessRisk => assert Finish !in RiskPaths.Values;
    case AssessDefence => assert Finish !in DefencePaths.Values;
    case GetStrategy => assert Finish !in StrategyPaths.Values;
    case CreateLeavePlan => assert Finish !in LeavePlanPaths.Values;
    case CreateStayPlan => assert Finish !in StayPlanPaths.Values;
    case _ =>
  }

  /** The defence answers node is the graph's only dead end: no edge leaves it. */
  lemma DefenceAnswersIsTheOnlyDeadEnd(n: Node)
    ensures Edges(n).NoEdge? <==> n == GetDefenceAnswers
  {
  }

  /**
    A run resumed at the defence answers node merges the answers and then
    stops there, reaching neither END nor another interrupt; a reply that
    cannot be merged fails it.
   */
  lemma DefenceAnswersRunStops(w: World, env: Env, fuel: nat)
    requires fuel >= 1
    ensures var r := WebSocketAnswers(DefenceAssessment, w);
            Advance(GetDefenceAnswers, w, env, fuel)
            == if r.Ok? then Halted(GetDefenceAnswers, r.value) else Failed(GetDefenceAnswers, w, r.error)
  {
    assert Execute(GetDefenceAnswers, w, env) == WebSocketAnswers(DefenceAssessment, w);
    assert Edges(GetDefenceAnswers) == NoEdge;
  }

  // ---------------------------------------------------------------------------
  // Runs

  /** A failing language model leaves the world as it was and the run resumable at the same node. */
  lemma CollaboratorFailureKeepsCheckpoint(w: World, env: Env, fuel: nat)
    requires fuel >= 1
    requires env.llm(AssessRisk, BuildContext(w.state, env.show)).None?
    ensures Begin(w, env, fuel) == Failed(AssessRisk, w, CollaboratorFailure)
  {
  }

  /** One step of a run that neither stops nor fails hands the rest of the run to the next node. */
  lemma AdvanceUnfold(n: Node, w: World, env: Env, fuel: nat, m: Node)
    requires fuel >= 1
    requires Execute(n, w, env).Ok?
    requires Successor(n, Execute(n, w, env).value.state) == Ok(Some(To(m)))
    requires m !in InterruptBefore
    ensures Advance(n, w, env, fuel) == Advance(m, Execute(n, w, env).value, env, fuel - 1)
  {
  }

  /** The world after the risk assessment stored `sec`. */
  function Assessed(w: World, sec: Section): World {
    w.(state := w.state.(sections := w.state.sections[RiskAssessment := sec]))
  }

  /** A successful risk assessment stores its section and hands the run to the node its router picks. */
  lemma BeginAfterAssessment(w: World, env: Env, fuel: nat, sec: Section, m: Node)
    requires fuel >= 1
    requires env.llm(AssessRisk, BuildContext(w.state, env.show)) == Some(sec)
    requires Successor(AssessRisk, Assessed(w, sec).state) == Ok(Some(To(m)))
    requires m !in InterruptBefore
    ensures Begin(w, env, fuel) == Advance(m, Assessed(w, sec), env, fuel - 1)
  {
    assert Execute(AssessRisk, w, env) == Ok(Assessed(w, sec));
    AdvanceUnfold(AssessRisk, w, env, fuel, m);
  }

  /** An exact "unclear" risk routes to the risk questions when there are some, and past them otherwise. */
  lemma UnclearRiskRoutes(st: State)
    requires RiskAssessment in st.sections && st.sections[RiskAssessment].riskLevel == Some("unclear")
    ensures Successor(AssessRisk, st)
         == Ok(Some(if NoQuestions(st.sections[RiskAssessment].questions) then To(AskContinueWithPlan) else To(AskRiskQuestions)))
  {
    LowerFixesLowerCase("unclear");
    RiskRouting(st);
  }

  /** After an "unclear" risk assessment the run goes to the risk questions, or past them when there are none. */
  lemma UnclearRiskHandsOver(w: World, env: Env, fuel: nat, sec: Section)
    requires fuel >= 1
    requires env.llm(AssessRisk, BuildContext(w.state, env.show)) == Some(sec)
    requires sec.riskLevel == Some("unclear")
    ensures Begin(w, env, fuel)
         == Advance(if NoQuestions(sec.questions) then AskContinueWithPlan else AskRiskQuestions,
                    Assessed(w, sec), env, fuel - 1)
  {
    var m := if NoQuestions(sec.questions) then AskContinueWithPlan else AskRiskQuestions;
    assert m !in InterruptBefore;
    var st1 := Assessed(w, sec).state;
    assert st1.sections[RiskAssessment] == sec;
    UnclearRiskRoutes(st1);
    BeginAfterAssessment(w, env, fuel, sec, m);
  }

  /**
    An "unclear" risk with questions to ask: the run queues exactly those
    questions for the session and stops before collecting the answers.
   */
  lemma UnclearRiskAsksQuestions(w: World, env: Env, fuel: nat, sec: Section)
    requires fuel >= 2
    requires w.state.sessionId != ""
    requires env.llm(AssessRisk, BuildContext(w.state, env.show)) == Some(sec)
    requires sec.riskLevel == Some("unclear") && !NoQuestions(sec.questions)
    ensures var o := Begin(w, env, fuel);
            && o == Suspended(GetRiskAnswers, o.world)
            && Queue(o.world.outbox, w.state.sessionId)
               == Queue(w.outbox, w.state.sessionId) + [QuestionsNote(RiskAssessment, sec.questions.value.questions)]
  {
    var w1 := Assessed(w, sec);
    UnclearRiskHandsOver(w, env, fuel, sec);
    AskNodeStopsAfterOneStep(AskRiskQuestions, w1, env, fuel - 1);
    assert PendingQuestions(w1.state, RiskAssessment) == sec.questions.value.questions;
  }

  /**
    Forced progress: an "unclear" risk with nothing to ask does not loop back
    for questions; the run goes on to the continue choice and stops before
    recording it, with the prompt recorded in its section.
   */
  lemma UnclearRiskWithoutQuestionsMovesOn(w: World, env: Env, fuel: nat, sec: Section)
    requires fuel >= 2
    requires w.state.sessionId != ""
    requires env.llm(AssessRisk, BuildContext(w.state, env.show)) == Some(sec)
    requires sec.riskLevel == Some("unclear") && NoQuestions(sec.questions)
    ensures var o := Begin(w, env, fuel);
            && o == Suspended(GetContinueWithPlan, o.world)
            && ContinueWithPlan in o.world.state.sections
            && o.world.state.sections[ContinueWithPlan].choicePrompt == Some(ContinueWithPlanChoice.prompt)
            && |Queue(o.world.outbox, w.state.sessionId)| == |Queue(w.outbox, w.state.sessionId)| + 1
  {
    UnclearRiskHandsOver(w, env, fuel, sec);
    ContinuePromptStops(Assessed(w, sec), env, fuel - 1);
  }

  /** The continue prompt queues one notification, records its prompt and stops before the reply is read. */
  lemma ContinuePromptStops(w: World, env: Env, fuel: nat)
    requires fuel >= 1
    requires w.state.sessionId != ""
    ensures var o := Advance(AskContinueWithPlan, w, env, fuel);
            && o == Suspended(GetContinueWithPlan, o.world)
            && ContinueWithPlan in o.world.state.sections
            && o.world.state.sections[ContinueWithPlan].choicePrompt == Some(ContinueWithPlanChoice.prompt)
            && |Queue(o.world.outbox, w.state.sessionId)| == |Queue(w.outbox, w.state.sessionId)| + 1
  {
    AskNodeStopsAfterOneStep(AskContinueWithPlan, w, env, fuel);
  }

  /** Resuming at the continue choice records the session's reply as the section's last choice. */
  lemma ContinueChoiceRecorded(w: World, env: Env)
    requires w.state.sessionId != "" && w.state.sessionId in w.inbox
    requires ContinueWithPlan in w.state.sections
    ensures var r := Execute(GetContinueWithPlan, w, env);
            && r == WebSocketSelection(ContinueWithPlan, w) && r.Ok?
            && ContinueWithPlan in r.value.state.sections
            && r.value.state.sections[ContinueWithPlan].lastChoice == Some(w.inbox[w.state.sessionId])
            && r.value.state.sections.Keys == w.state.sections.Keys
            && r.value.outbox == w.outbox
  {
    assert ActionOf(GetContinueWithPlan) == Record(ContinueWithPlan);
  }

  /**
    Declining the plan: resumed on a selected "no", the run reaches END with
    no section added and nothing queued.
   */
  lemma DecliningEndsTheRun(w: World, env: Env, fuel: nat, text: string)
    requires fuel >= 1
    requires w.state.sessionId != "" && w.state.sessionId in w.inbox
    requires w.inbox[w.state.sessionId] == Selected(text) && Lower(text) == "no"
    requires ContinueWithPlan in w.state.sections
    ensures var o := Advance(GetContinueWithPlan, w, env, fuel);
            && o == Completed(o.world)
            && o.world.state.sections.Keys == w.state.sections.Keys
            && o.world.outbox == w.outbox
  {
    ContinueChoiceRecorded(w, env);
    var w1 := Execute(GetContinueWithPlan, w, env).value;
    ContinueRouting(w1.state);
    assert Successor(GetContinueWithPlan, w1.state) == Ok(Some(Finish));
  }

  /** An unrecognised selection stops the run again before the same choice is recorded. */
  lemma UnrecognisedSelectionWaits(w: World, env: Env, fuel: nat, text: string)
    requires fuel >= 1
    requires w.state.sessionId != "" && w.state.sessionId in w.inbox
    requires w.inbox[w.state.sessionId] == Selected(text) && Lower(text) != "no" && Lower(text) != "yes"
    requires ContinueWithPlan in w.state.sections
    ensures Advance(GetContinueWithPlan, w, env, fuel) == Suspended(GetContinueWithPlan, Execute(GetContinueWithPlan, w, env).value)
  {
    ContinueChoiceRecorded(w, env);
    var w1 := Execute(GetContinueWithPlan, w, env).value;
    ContinueRouting(w1.state);
    assert Successor(GetContinueWithPlan, w1.state) == Ok(Some(To(GetContinueWithPlan)));
    assert GetContinueWithPlan in InterruptBefore;
  }

  /** A mapping where a selected option is expected fails the run before anything changes. */
  lemma MappingAsSelectionFails(w: World, env: Env, fuel: nat)
    requires fuel >= 1
    requires w.state.sessionId != "" && w.state.sessionId in w.inbox
    requires w.inbox[w.state.sessionId].Answers?
    requires ContinueWithPlan in w.state.sections
    ensures Advance(GetContinueWithPlan, w, env, fuel) == Failed(GetContinueWithPlan, w, MalformedReply)
  {
    ContinueChoiceRecorded(w, env);
    var w1 := Execute(GetContinueWithPlan, w, env).value;
    ContinueRouting(w1.state);
    assert Successor(GetContinueWithPlan, w1.state) == Err(MalformedReply);
  }
}
